=== FILE: README.md ===
# Chat server core: framing buffer and poll loop

A model, in Dafny, of the core of a small C chat client/server over TCP.
It has two parts.

**Framing (chat.c).** A connection's framing buffer (`buffer_t`) holds:

- a fixed-size byte array;
- the number of bytes held (`in_buffer`);
- the payload length of the message being assembled (`msg_length`, 0 while its 2-byte header is unread);
- a message-ready flag (`has_message`).

On the wire, a message is a 16-bit big-endian length followed by that many payload bytes. The model covers:

- `update_buffer_info`: decoding the header, stripping it and flagging a complete message;
- `clean_buffer`: consuming one message, or a hard reset;
- the header that `write_to_socket` puts in front of a payload;
- one pass through the body of `read_from_socket`'s loop: one `recv` into the free tail, the update, and the MAX_MESSAGE_SIZE check. A flag chooses `update_buffer_info` as written or corrected (see Findings).

The buffer is an immutable record whose `data` is the whole array. Moves inside the array (`memmove`) change `data` as the C code does, including the stale bytes left behind.

**Poll loop (server.c `main`).** The server keeps an array of MAX_CLIENTS + 10 = 30 `pollfd` slots, of which `connections_len` are in use. Slot 0 is the listening socket. The model covers:

- start-up;
- appending accepted sockets;
- classifying each entry's `revents`;
- handling one entry, with the `close_connection` flag;
- marking a closed entry with fd -1;
- the compaction pass that removes marked entries.

One round of the loop is `poll` followed by the dispatch pass and then compaction:

- a `poll` result below 0 is fatal;
- a result of 0 ends the loop;
- otherwise the round runs the pass and compaction.

Two behaviours of the C code that have no bound check become an explicit `Overflow` outcome:

- accepting past the last slot writes beyond the array;
- compacting a full table that holds a closed entry reads beyond it.

What the system calls return is an input to each model function:

- the pending bytes, peer state and error state of a socket;
- the `poll` result and each entry's `revents`;
- the descriptors `accept` hands out;
- whether the echo loop saw `recv` return 0.

The host is taken to be little-endian, so `ntohs`/`htons` swap the two bytes. `char` is taken to be unsigned.

Modules:

- `Framing` (framing.dfy) and `FramingProps` (framing_props.dfy) cover chat.c.
- `ConnTable` (table.dfy) and `TableProps` (table_props.dfy) cover the `pollfd` table and its compaction.
- `Reactor` (reactor.dfy) and `ReactorProps` (reactor_props.dfy) cover one round of the loop.

Two behaviours of the code worth knowing:

- **Which `revents` stop the server.** Any `revents` other than exactly POLLIN stops the server (server.c:108). So POLLHUP, and POLLIN together with any other bit, stop it too (`Reactor.Classify`).
- **Zero-length messages.** A message whose header declares length 0 is flagged ready at once (chat.c:33-34, `FramingProps.HeaderAlone`).

## Model

| member | source | states |
|---|---|---|
| Framing.DecodeLength | chat.c:26 | the header decode on a little-endian host is the big-endian reading of the first two buffer bytes, and is below 2^16 |
| Framing.EncodeLength | chat.c:94-96 | the two header bytes write_to_socket stores are the big-endian bytes of the length reduced modulo 2^16 |
| Framing.LengthRoundTrip | chat.c:94-96 | decoding the written header gives back the length modulo 2^16, and exactly the length when it is below 2^16 |
| Framing.Frame | chat.c:93-98 | a message on the wire is two header bytes holding the big-endian payload length, followed by the payload unchanged |
| Framing.FrameHeaderDecodes | chat.c:26 | the header of any frame decodes to the length of its payload |
| Framing.MoveDown | chat.c:28 | moving the held bytes down puts bytes [from, n) at the front and leaves everything from n - from on unchanged |
| Framing.MoveUp2 | chat.c:95 | moving the payload up by two puts bytes [0, len) at [2, len + 2) and leaves the first two and the rest unchanged |
| Framing.Update | chat.c:12-35 | with fewer than two bytes held nothing changes; with a known length only the ready flag can be set, exactly when the payload is complete; otherwise the header is decoded big-endian, the held bytes lose exactly the two header bytes, and the flag is set when the payload is complete; the flag is never cleared |
| Framing.UpdateFixed | chat.c:14-22 | the corrected update agrees with the original whenever two bytes are held; with a known length it flags the message exactly when the payload is complete; whenever a known-length payload is complete the result is flagged |
| Framing.Clean | chat.c:37-52 | consuming a message removes exactly its payload from the front of the held bytes, so payload followed by remaining equals what was held; a hard reset empties the buffer and zeroes every byte; either way the next header is unread and no message is flagged |
| Framing.PrependHeader | chat.c:93-98 | the first two bytes become the big-endian length, the payload follows unchanged, the bytes after it are untouched, both counts grow by two, and the bytes to send are exactly the frame of the payload |
| Framing.HeaderInFront | chat.c:95-96 | writing the header over the first two bytes after the move leaves the big-endian length, then the payload, then the untouched rest of the array |
| Framing.Append | chat.c:59-72 | recv appends the received bytes after those held, and the framing state is unchanged |
| Framing.RecvCount | chat.c:59 | one recv returns no more than is pending and no more than the free space, and returns nothing exactly when nothing is pending or the buffer is full |
| Framing.RecvStep | chat.c:58-80 | one pass of read_from_socket's loop, with update_buffer_info as written or corrected: the buffer invariant is kept; a fatal error occurs exactly when the socket is failing; a would-block leaves the buffer unchanged; it reports a close exactly when `recv` returns 0: the buffer is full with bytes still pending, or nothing is pending and the peer has closed; a full buffer with nothing pending and the peer open would block and keeps the connection; a successful or too-long receive leaves the update of the buffer with the received bytes appended; it reports a too-long message, which also closes the connection, exactly when that update declares a length above MAX_MESSAGE_SIZE; a successful recv takes off the socket exactly the bytes it appended, leaving the rest pending; pending data with free space always makes progress |
| FramingProps.ConsumeFrame | chat.c:12-52 | a whole frame at the front of the buffer is parsed into its payload, flagged ready, and consuming it leaves exactly the bytes that followed |
| FramingProps.RoundTrip | chat.c:93-98 | the bytes written for a payload, received into an empty buffer, decode to the same length and the same payload, flagged ready; consuming it empties the buffer |
| FramingProps.Pipelining | chat.c:12-52 | two frames received back to back come out in order, each with its own payload, and consuming both leaves exactly what followed |
| FramingProps.PartialHeader | chat.c:14-15 | with update_buffer_info as written, one header byte alone changes nothing and flags nothing; the second byte completes the header with no payload byte lost |
| FramingProps.PartialPayload | chat.c:14-34 | with update_buffer_info as written and a payload of at least two bytes, part of the payload held leaves the message known but not ready; the rest arriving makes it ready with the payload intact |
| FramingProps.PartialPayloadFixed | chat.c:17-22 | corrected update: the same for a payload of any length, and the first update agrees with the one as written |
| FramingProps.HeaderAlone | chat.c:26-34 | a header received alone is decoded and stripped, and the message is ready at once only if its length is 0 |
| FramingProps.OneBytePayloadMissed | chat.c:14-15 | a one-byte payload received after its header is held in full but not flagged ready by the update as written until another byte arrives, which then flags it with the payload intact; the corrected update flags it at once |
| FramingProps.LoneByteAfterHeader | chat.c:14-22 | with one byte expected and then held, the original update leaves the buffer unchanged and unflagged while the corrected one flags it |
| FramingProps.OversizeHeaderCloses | chat.c:75-80 | a header declaring more than MAX_MESSAGE_SIZE, arriving at an empty buffer, makes the receive step ask for the connection to be closed, with either update |
| FramingProps.ReceiveFrames | chat.c:58-80 | a whole frame of allowed length and whatever follows it, pending at an empty buffer, is taken by one receive step, which hands on exactly that payload, flagged ready, with the following bytes held behind it |
| ConnTable.Initial | server.c:82-84 | at start-up the table has 30 slots, one in use holding the listening socket, and every slot in use watches POLLIN |
| ConnTable.Append | server.c:129-131 | an accepted socket is added after the entries in use, watching POLLIN, and every other slot is unchanged |
| ConnTable.RemoveClosed | server.c:178-185 | the intended compaction keeps exactly the entries not marked closed, and no marked entry remains |
| ConnTable.SkipCompact | server.c:178-185 | the compaction as written never lengthens the table and keeps only fds that were there |
| ConnTable.ShiftLeft | server.c:180-181 | one shift moves the fds of the following slots one slot down and leaves every `events` field and every other slot unchanged |
| ConnTable.Shift | server.c:180-181 | the inner loop computes exactly the one-slot shift |
| ConnTable.ShiftOut | server.c:180-183 | one removal drops exactly the closed entry from the fds in use, leaves every `events` field and every slot from the end of the table on unchanged, and advances either scan |
| ConnTable.SkipScanStep | server.c:179-184 | one iteration of the loop as written keeps the as-written compaction of the whole table invariant, whether it removes an entry or passes one |
| ConnTable.RemoveScanStep | server.c:179-184 | one iteration of the corrected loop keeps the complete compaction of the whole table invariant and makes progress |
| ConnTable.SkipScan | server.c:178-185 | the loop as written leaves in use exactly the as-written compaction of the fds that were in use, and moves no `events` field |
| ConnTable.RemoveScan | server.c:178-185 | the corrected loop leaves in use exactly the fds not marked closed, in order, and moves no `events` field |
| ConnTable.CompactAsWritten | server.c:178-185 | the loop as written leaves exactly the as-written compaction of the fds in use, keeps every `events` field and every slot past the end, and keeps every slot in use watching POLLIN |
| ConnTable.Compact | server.c:178-185 | the corrected loop leaves exactly the entries not marked closed, in order, and keeps `events`, the slots past the end, and POLLIN on every slot in use |
| TableProps.RemoveClosedConcat | server.c:178-185 | removing the closed entries distributes over concatenation |
| TableProps.RemoveClosedNoop | server.c:178-185 | a table with no closed entry is left as it is |
| TableProps.SkipCompactKeepsLiveOrder | server.c:178-185 | the loop as written keeps every entry in use, in order; only closed entries are dropped |
| TableProps.ClosedSurvivesIffAdjacent | server.c:178-185 | a closed entry survives the loop as written exactly when two closed entries were adjacent |
| TableProps.NoAdjacentClosedMeansFullCompaction | server.c:178-185 | without adjacent closed entries the loop as written agrees with the intended compaction |
| TableProps.SkipCompactShrinksIffClosed | server.c:178-185 | the loop as written shortens the table exactly when some entry is closed |
| TableProps.AdjacentClosedLeftBehind | server.c:178-185 | the table [3, -1, -1, 5] compacts to [3, -1, 5] as written, and to [3, 5] when corrected |
| Reactor.Classify | server.c:105-114 | nothing reported means skip; anything other than exactly POLLIN means stop; POLLIN on the listening socket means accept; POLLIN on a client means serve |
| Reactor.Handle | server.c:114-175 | the listening socket appends every accepted descriptor; a client sets the flag to whether its peer closed; the entry is marked closed exactly when the flag is set; no other entry in use changes |
| Reactor.Dispatch | server.c:102-176 | the pass never removes entries, stays within the table unless it overflows, and leaves the entries it has passed unchanged |
| Reactor.Start | server.c:30-84 | the server starts with the initial table and the flag clear, which satisfies the table invariant |
| Reactor.Round | server.c:88-185 | a negative poll result is fatal, a zero one ends the loop with nothing changed, and any other result keeps `listenFd` and the table within its slots |
| ReactorProps.DispatchEndsIffAnomaly | server.c:103-112 | the pass sets end_server exactly when an entry it reaches reports something other than POLLIN |
| ReactorProps.RoundEndsIffAnomaly | server.c:88-112 | a round that polled something and did not overflow ends the server exactly when some entry reported something other than POLLIN |
| ReactorProps.DispatchShape | server.c:102-176 | the corrected pass marks only clients whose peer closed, leaves the listening socket in slot 0, and appends only what the listening socket accepted |
| ReactorProps.HandleShape | server.c:114-175 | handling one readable entry with the flag cleared appends only for the listening socket in slot 0 and marks a client only if its peer closed |
| ReactorProps.ShapeDistinctOpen | server.c:129-174 | after the corrected pass no fd appears twice among the entries not marked closed |
| ReactorProps.RemoveClosedDistinct | server.c:178-185 | compaction of a table whose open entries are distinct leaves no fd twice |
| ReactorProps.CompactedShape | server.c:178-185 | compacting what the corrected pass left gives the listening socket first, no fd twice, only fds that were there or were accepted, every client whose peer did not close, and everything accepted when the listening socket was readable |
| ReactorProps.RoundKeepsTable | server.c:88-185 | the corrected round keeps the listening socket first, no closed entry, no fd twice, and the table within its slots; every fd kept was there or was accepted; every client whose peer did not close stays; a readable client whose peer closed is removed when no earlier entry stopped the server; a readable listening socket adds everything accepted |
| ReactorProps.DispatchMarks | server.c:114-175 | in the pass as written or corrected, a readable client whose peer closed is marked closed once the pass reaches it, that is when no earlier entry stops the server |
| ReactorProps.ServedPeerClosedMarked | server.c:136-175 | serving a readable client whose peer closed marks it, and the rest of the pass leaves the mark |
| ReactorProps.ClosedPeerLeaves | server.c:168-185 | after the corrected pass, the fd of a marked client is held by no other entry, so compaction removes it from the table |
| ReactorProps.StaleFlagMarksListener | server.c:114-175 | the pass as written marks the readable listening socket closed exactly when the flag was left set when the pass began |
| ReactorProps.ResetFlagKeepsListener | server.c:114-175 | the corrected pass never marks the listening socket, whatever the flag held |
| ReactorProps.StaleFlagClosesListener | server.c:33-175 | as written, a client's close in one round leaves the flag set, so accepting in the next round closes the listening socket and the table keeps only the new client; the corrected round keeps the listening socket |

## Left out

- The send loop of write_to_socket (chat.c:100-113) is left out. It is a retry loop on `send`. On a would-block it subtracts the negative return value from the length. It ends with a hard reset, which is `Framing.Clean` with `force` set.
- try_sending_message, the callback read_from_socket runs after each recv, is not part of this model; its body is in no file of the core. It is assumed to act only on a buffer whose `has_message` is set.
- The repetition of read_from_socket's loop is not modelled. `Framing.RecvStep` is one pass through its body, and the outcome says whether the loop ends and why.
- The echo loop of the server (server.c:137-165) is reduced to its effect on the flag: whether `recv` returned 0. The bytes echoed are not modelled.
- Fatal error paths (`syserr` after `recv`, `send`, `accept`, `close` or `poll` fails) end the process. They appear only as `Fatal` and `PollFailed` outcomes, or are not modelled.
- Command-line parsing, socket set-up (`socket`, `ioctl`, `bind`, `listen`), the 3-minute timeout value, `printf` logging, and the final loop that closes the remaining descriptors (server.c:188-196) are left out. They are I/O with no state the core depends on.
- client.c, err.c and chat.h are not part of this model. No file of the core defines the BUFFER_SIZE and MAX_MESSAGE_SIZE that chat.c uses (client.c:12 and server.c:16 define their own, unrelated BUFFER_SIZE), so both are parameters (`Framing.Limits`), constrained only so that a maximal frame fits the buffer.
- Framing.DecodeLength: does not model a signed `char`. On such a host a first header byte of 0x80 or more is sign-extended, and the decoded length differs only for lengths of 32768 and above, all of which exceed the 1000-byte limit the comment at chat.c:75 gives MAX_MESSAGE_SIZE.
- Framing.DecodeLength: assumes a little-endian host. On a big-endian host `ntohs` is the identity and the header decodes byte-swapped.
- Reactor.Round: `poll` is required to report nothing for a negative fd (`Reactor.PollReport`), as POSIX specifies. The count `poll` returns is used only for its sign.
- ReactorProps.RoundKeepsTable: assumes that `accept` hands out fresh, distinct, non-negative descriptors (`ReactorProps.FreshAccepts`). That is the operating system's promise, not the program's.

## Findings

| source | as written | input that shows it | evidently intended | confidence | as-written member | corrected member |
|---|---|---|---|---|---|---|
| chat.c:14-22 | the "fewer than two bytes held" early return also applies once the length is known, so a payload of one byte that arrives in a receive of its own after its header is held in full but not flagged ready until another byte arrives from the peer; if the peer sends nothing more it is never delivered, assuming try_sending_message acts only on a buffer whose has_message is set | header 0x00 0x01 in one recv, then the single payload byte in the next | apply the early return only while the header is unread; with a known length, flag the message as soon as the payload is complete | high (proved on the model; not executed) | FramingProps.OneBytePayloadMissed | Framing.UpdateFixed |
| server.c:178-185 | after removing a closed entry the scan still advances, so the entry shifted into the current slot is never examined; of two adjacent closed entries one stays in the table | fds [3, -1, -1, 5] at compaction | examine the same slot again after a removal, so every closed entry is removed | high (proved on the model; not executed) | TableProps.AdjacentClosedLeftBehind | ConnTable.Compact |
| server.c:33-175 | `close_connection` is declared once and cleared only when a client is served; when the listening socket is readable, the value left by the last client served, possibly in an earlier round, decides whether the listening socket is closed | round 1: fds [3, 5], revents [0, POLLIN], peer of 5 closes; round 2: revents [POLLIN], accept returns 6 | clear the flag for every entry, so that only a client whose peer closed is marked | high (proved on the model; not executed) | ReactorProps.StaleFlagClosesListener | ReactorProps.RoundKeepsTable |

=== FILE: framing.dfy ===
/** The length-prefixed framing buffer of chat.c.

    A `buffer_t` holds a fixed-size byte array `buffer`, the number of valid
    bytes `in_buffer`, the payload length `msg_length` of the message being
    assembled (0 while its 2-byte header is still unread) and the flag
    `has_message`.  Every operation works in place on the whole array, so the
    model keeps the whole array and states its properties about the valid
    prefix `Content()`.

    The host is taken to be little-endian (`ntohs`/`htons` swap the two bytes
    of a 16-bit word) and `char` to be unsigned. */
module Framing {

  newtype byte = x: int | 0 <= x < 256

  /** Largest value of a uint16_t plus one. */
  const WORD: nat := 65536

  /** BUFFER_SIZE (capacity of `buffer`) and MAX_MESSAGE_SIZE (largest
      accepted payload).  Their definitions are not part of this model; a
      buffer must hold one maximal message and its header. */
  datatype Limits = Limits(bufferSize: nat, maxMessage: nat) {
    predicate Valid() {
      maxMessage + 2 <= bufferSize
    }
  }

  /** buffer_t: the storage array together with the framing state. */
  datatype Buffer = Buffer(data: seq<byte>, inBuffer: nat, msgLength: nat, hasMessage: bool) {

    predicate WellFormed() {
      inBuffer <= |data|
    }

    /** The bytes currently held, `buffer[0 .. in_buffer)`. */
    function Content(): seq<byte>
      requires WellFormed()
    {
      data[..inBuffer]
    }

    /** The payload of the message being assembled, once all of it is held. */
    function Payload(): seq<byte>
      requires WellFormed() && msgLength <= inBuffer
    {
      data[..msgLength]
    }
  }

  /** The state a buffer of a connection with limits `lim` is in: the
      array has BUFFER_SIZE bytes and `in_buffer` never passes its end. */
  predicate Inv(lim: Limits, b: Buffer) {
    |b.data| == lim.bufferSize && b.WellFormed()
  }

  /** A buffer of the given capacity holding nothing. */
  function EmptyBuffer(size: nat): (r: Buffer)
    ensures r.WellFormed() && |r.data| == size
    ensures r.Content() == [] && r.msgLength == 0 && !r.hasMessage
  {
    Buffer(seq(size, _ => 0 as byte), 0, 0, false)
  }

  // ---------------------------------------------------------------------
  // Byte order

  /** Reference definition: the value of two bytes read most significant first. */
  function BigEndian(hi: byte, lo: byte): nat {
    hi as nat * 256 + lo as nat
  }

  /** Reference definition: the two bytes of `v`, most significant first. */
  function BigEndianBytes(v: nat): seq<byte>
    requires v < WORD
  {
    [(v / 256) as byte, (v % 256) as byte]
  }

  /** A 16-bit word splits into its high and low byte and back. */
  lemma SplitWord(hi: nat, lo: nat)
    requires lo < 256
    ensures (hi * 256 + lo) / 256 == hi && (hi * 256 + lo) % 256 == lo
  {
  }

  /** The 16-bit word whose low byte is `b0` and high byte is `b1`, both
      bytes taken as unsigned. */
  function HostWord(b0: byte, b1: byte): (r: nat)
    ensures r < WORD
  {
    b0 as nat + b1 as nat * 256
  }

  /** `ntohs` and `htons` on a little-endian host: swap the two bytes. */
  function Swap16(v: nat): (r: nat)
    requires v < WORD
    ensures r < WORD
  {
    (v % 256) * 256 + v / 256
  }

  /** The two bytes a little-endian host stores for the 16-bit word `v`
      when it is copied into the byte array. */
  function HostBytes(v: nat): (r: seq<byte>)
    requires v < WORD
    ensures |r| == 2 && HostWord(r[0], r[1]) == v
  {
    [(v % 256) as byte, (v / 256) as byte]
  }

  /** The header decode of update_buffer_info: the first two bytes combined
      into a host word, then converted from network order.  It is the
      big-endian reading of the two bytes. */
  function DecodeLength(b0: byte, b1: byte): (r: nat)
    ensures r == BigEndian(b0, b1)
    ensures r < WORD
  {
    SplitWord(b1 as nat, b0 as nat);
    Swap16(HostWord(b0, b1))
  }

  /** The header write_to_socket puts in front of a payload of length `len`:
      the length truncated to 16 bits, converted to network order and
      stored in host order, so the bytes come out most significant first. */
  function EncodeLength(len: nat): (r: seq<byte>)
    ensures r == BigEndianBytes(len % WORD)
  {
    var v := len % WORD;
    SplitWord(v / 256, v % 256);
    SplitWord(v % 256, v / 256);
    HostBytes(Swap16(v))
  }

  /** Header round trip: the header written for a length below 2^16 is
      decoded back to that length; a longer length comes back reduced
      modulo 2^16, as the uint16_t cast drops its high bits. */
  lemma LengthRoundTrip(len: nat)
    ensures DecodeLength(EncodeLength(len)[0], EncodeLength(len)[1]) == len % WORD
    ensures len < WORD ==> DecodeLength(EncodeLength(len)[0], EncodeLength(len)[1]) == len
  {
    var v := len % WORD;
    SplitWord(v / 256, v % 256);
  }

  /** A message as it travels on the wire: length header, then the payload. */
  function Frame(p: seq<byte>): (r: seq<byte>)
    requires |p| < WORD
    ensures |r| == |p| + 2 && r[..2] == BigEndianBytes(|p|) && r[2..] == p
  {
    var h := EncodeLength(|p|);
    assert |p| % WORD == |p|;
    assert h == BigEndianBytes(|p|);
    h + p
  }

  /** The header of a frame decodes to the length of its payload. */
  lemma FrameHeaderDecodes(p: seq<byte>)
    requires |p| < WORD
    ensures DecodeLength(Frame(p)[0], Frame(p)[1]) == |p|
  {
    LengthRoundTrip(|p|);
  }

  // ---------------------------------------------------------------------
  // In-place moves

  /** Moving the held bytes down to the front: the bytes `[from, n)` move to
      `[0, n - from)`; everything from `n - from` on keeps its old value. */
  function MoveDown(data: seq<byte>, from: nat, n: nat): (r: seq<byte>)
    requires from <= n <= |data|
    ensures |r| == |data|
    ensures r[..n - from] == data[from..n]
    ensures r[n - from..] == data[n - from..]
  {
    data[from..n] + data[n - from..]
  }

  /** Moving the payload up by two to make room for the header: the bytes
      `[0, len)` move to `[2, len + 2)`. */
  function MoveUp2(data: seq<byte>, len: nat): (r: seq<byte>)
    requires len + 2 <= |data|
    ensures |r| == |data|
    ensures r[..2] == data[..2]
    ensures r[2..len + 2] == data[..len]
    ensures r[len + 2..] == data[len + 2..]
  {
    data[..2] + data[..len] + data[len + 2..]
  }

  // ---------------------------------------------------------------------
  // update_buffer_info

  /** update_buffer_info as written.  With fewer than two bytes held it does
      nothing at all; once a length is known it only sets `has_message` when the
      payload is complete; otherwise it decodes the header, strips it and sets
      `has_message` if the payload is already complete.  It never clears
      `has_message`. */
  function Update(b: Buffer): (r: Buffer)
    requires b.WellFormed()
    ensures r.WellFormed() && |r.data| == |b.data|
    ensures b.inBuffer < 2 ==> r == b
    ensures b.inBuffer >= 2 && b.msgLength > 0 ==>
      && r.data == b.data && r.inBuffer == b.inBuffer && r.msgLength == b.msgLength
      && r.hasMessage == (b.hasMessage || b.inBuffer >= b.msgLength)
    ensures b.inBuffer >= 2 && b.msgLength == 0 ==>
      && r.msgLength == BigEndian(b.data[0], b.data[1])
      && r.inBuffer + 2 == b.inBuffer
      && r.Content() == b.Content()[2..]
      && r.hasMessage == (b.hasMessage || r.inBuffer >= r.msgLength)
    ensures b.hasMessage ==> r.hasMessage
  {
    if b.inBuffer < 2 then
      b
    else if b.msgLength > 0 then
      if b.inBuffer >= b.msgLength then b.(hasMessage := true) else b
    else
      var parsed := b.(data := MoveDown(b.data, 2, b.inBuffer),
                       inBuffer := b.inBuffer - 2,
                       msgLength := DecodeLength(b.data[0], b.data[1]));
      if parsed.inBuffer >= parsed.msgLength then parsed.(hasMessage := true) else parsed
  }

  /** update_buffer_info with the "header incomplete" guard applied only while
      the header is actually unread.  Once a length is known, the payload is
      flagged as soon as it is complete, however few bytes it has. */
  function UpdateFixed(b: Buffer): (r: Buffer)
    requires b.WellFormed()
    ensures r.WellFormed() && |r.data| == |b.data|
    ensures b.msgLength > 0 ==>
      r == b.(hasMessage := b.hasMessage || b.inBuffer >= b.msgLength)
    ensures b.msgLength == 0 && b.inBuffer < 2 ==> r == b
    ensures b.inBuffer >= 2 ==> r == Update(b)
    ensures r.msgLength > 0 && r.inBuffer >= r.msgLength ==> r.hasMessage
  {
    if b.msgLength > 0 then
      if b.inBuffer >= b.msgLength then b.(hasMessage := true) else b
    else
      Update(b)
  }

  // ---------------------------------------------------------------------
  // clean_buffer

  /** clean_buffer.  Without `force` it drops exactly the current message
      from the front and keeps the bytes after it in order; with `force` it
      empties the buffer and zeroes the whole array.  Either way the next
      header is still to be read. */
  function Clean(b: Buffer, force: bool): (r: Buffer)
    requires b.WellFormed()
    requires !force ==> b.msgLength <= b.inBuffer
    ensures r.WellFormed() && |r.data| == |b.data|
    ensures r.msgLength == 0 && !r.hasMessage
    ensures !force ==> b.Content() == b.Payload() + r.Content()
    ensures force ==> r.inBuffer == 0
    ensures force ==> forall k :: 0 <= k < |r.data| ==> r.data[k] == 0
  {
    if !force then
      Buffer(MoveDown(b.data, b.msgLength, b.inBuffer), b.inBuffer - b.msgLength, 0, false)
    else
      EmptyBuffer(|b.data|)
  }

  // ---------------------------------------------------------------------
  // write_to_socket, header part

  /** The header prepend of write_to_socket: the `msg_length` payload bytes
      at the front move up by two, the 2-byte length header goes in front,
      and both counts grow by two.  The bytes then handed to `send` are
      `data[..msgLength]` of the result. */
  function PrependHeader(b: Buffer): (r: Buffer)
    requires b.msgLength + 2 <= |b.data|
    ensures |r.data| == |b.data| && r.hasMessage == b.hasMessage
    ensures r.msgLength == b.msgLength + 2 && r.inBuffer == b.inBuffer + 2
    ensures r.data[..2] == BigEndianBytes(b.msgLength % WORD)
    ensures r.data[2..r.msgLength] == b.data[..b.msgLength]
    ensures r.data[r.msgLength..] == b.data[r.msgLength..]
    ensures b.msgLength < WORD ==> r.data[..r.msgLength] == Frame(b.data[..b.msgLength])
  {
    HeaderInFront(b.data, b.msgLength);
    b.(data := EncodeLength(b.msgLength) + MoveUp2(b.data, b.msgLength)[2..],
       inBuffer := b.inBuffer + 2, msgLength := b.msgLength + 2)
  }

  /** The header written over the first two bytes of the moved array. */
  lemma HeaderInFront(data: seq<byte>, len: nat)
    requires len + 2 <= |data|
    ensures var d := EncodeLength(len) + MoveUp2(data, len)[2..];
      && |d| == |data|
      && d[..2] == BigEndianBytes(len % WORD)
      && d[2..len + 2] == data[..len]
      && d[len + 2..] == data[len + 2..]
      && (len < WORD ==> d[..len + 2] == Frame(data[..len]))
  {
    var moved := MoveUp2(data, len);
    var header := EncodeLength(len);
    var d := header + moved[2..];
    assert d[..2] == header;
    assert d[2..] == moved[2..];
    assert d[2..len + 2] == moved[2..len + 2];
    assert d[len + 2..] == moved[len + 2..];
    if len < WORD {
      assert d[..len + 2] == header + data[..len];
    }
  }

  // ---------------------------------------------------------------------
  // read_from_socket, one recv

  /** What the next `recv` on the connection sees: the bytes the peer has
      sent and not yet been read, whether the peer still has the stream
      open, and whether the socket is in an error state. */
  datatype Socket = Socket(pending: seq<byte>, peerOpen: bool, failing: bool)

  /** The result of one pass through the body of read_from_socket's loop. */
  datatype RecvOutcome =
    | Received(buf: Buffer, sock: Socket) // bytes taken; try_sending_message runs next
    | Drained(buf: Buffer)                // would block: loop ends, connection kept
    | PeerClosed(buf: Buffer)             // recv returned 0: connection to be closed
    | TooLong(buf: Buffer)                // length above MAX_MESSAGE_SIZE: connection to be closed
    | Fatal                               // any other recv error: the process exits

  /** The bytes recv writes at `buffer[in_buffer ..]`, in_buffer advanced. */
  function Append(b: Buffer, chunk: seq<byte>): (r: Buffer)
    requires b.WellFormed() && b.inBuffer + |chunk| <= |b.data|
    ensures r.WellFormed() && |r.data| == |b.data|
    ensures r.Content() == b.Content() + chunk
    ensures r.msgLength == b.msgLength && r.hasMessage == b.hasMessage
  {
    var data := b.data[..b.inBuffer] + chunk + b.data[b.inBuffer + |chunk|..];
    assert data[..b.inBuffer + |chunk|] == b.data[..b.inBuffer] + chunk;
    b.(data := data, inBuffer := b.inBuffer + |chunk|)
  }

  /** How many bytes one `recv` into the free tail of the buffer returns when
      data is pending: never more than the free space. */
  function RecvCount(b: Buffer, s: Socket): (n: nat)
    requires b.WellFormed()
    ensures n <= |s.pending| && b.inBuffer + n <= |b.data|
    ensures n == 0 <==> (|s.pending| == 0 || b.inBuffer == |b.data|)
  {
    if |s.pending| <= |b.data| - b.inBuffer then |s.pending| else |b.data| - b.inBuffer
  }

  /** The update the receive path runs: update_buffer_info as written, or
      the corrected one. */
  function UpdateAs(fixed: bool, b: Buffer): (r: Buffer)
    requires b.WellFormed()
    ensures r.WellFormed() && |r.data| == |b.data|
  {
    if fixed then UpdateFixed(b) else Update(b)
  }

  /** One recv and its bookkeeping: append what arrived, update the framing
      state, and signal a close when the declared length is too large.
      `fixed` chooses between update_buffer_info as written (false, what
      read_from_socket calls) and the corrected update (true).  A full
      buffer with bytes still pending reads as a close, because `recv` then
      returns 0; with nothing pending a zero-byte `recv` behaves like any
      other: it would block while the peer is open. */
  function RecvStep(lim: Limits, b: Buffer, s: Socket, fixed: bool): (r: RecvOutcome)
    requires Inv(lim, b)
    ensures r.Received? || r.Drained? || r.PeerClosed? || r.TooLong? ==> Inv(lim, r.buf)
    ensures r.Fatal? <==> s.failing
    ensures r.Drained? ==> r.buf == b && |s.pending| == 0 && s.peerOpen
    ensures r.PeerClosed? ==> r.buf == b
    ensures r.PeerClosed? <==>
      !s.failing && ((b.inBuffer == |b.data| && |s.pending| > 0) || (|s.pending| == 0 && !s.peerOpen))
    ensures r.Received? || r.TooLong? ==>
      r.buf == UpdateAs(fixed, Append(b, s.pending[..RecvCount(b, s)]))
    ensures r.TooLong? <==>
      && !s.failing && RecvCount(b, s) > 0
      && UpdateAs(fixed, Append(b, s.pending[..RecvCount(b, s)])).msgLength > lim.maxMessage
    ensures r.Received? ==>
      && r.buf.msgLength <= lim.maxMessage
      && r.sock.peerOpen == s.peerOpen && !r.sock.failing
      && r.sock.pending == s.pending[RecvCount(b, s)..]
      && |r.sock.pending| < |s.pending|
      && s.pending == s.pending[..|s.pending| - |r.sock.pending|] + r.sock.pending
    ensures !s.failing && |s.pending| > 0 && b.inBuffer < |b.data| ==> r.Received? || r.TooLong?
  {
    if s.failing then
      Fatal
    else
      var n := RecvCount(b, s);
      if n == 0 then
        if |s.pending| > 0 || !s.peerOpen then PeerClosed(b) else Drained(b)
      else
        var next := UpdateAs(fixed, Append(b, s.pending[..n]));
        if next.msgLength > lim.maxMessage then TooLong(next)
        else Received(next, s.(pending := s.pending[n..]))
  }
}

=== FILE: framing_props.dfy ===
/** Properties of the framing buffer that relate several operations:
    the header round trip, consuming one frame, pipelined frames, frames
    that arrive in pieces, and the length cap on the receive path. */
module FramingProps {
  import opened Framing

  /** A buffer holding a whole frame at its front, header still unread, is
      parsed by one update into that frame's payload; consuming it leaves
      exactly the bytes that followed the frame. */
  lemma ConsumeFrame(b: Buffer, p: seq<byte>, rest: seq<byte>)
    requires b.WellFormed() && b.msgLength == 0 && |p| < WORD
    requires b.Content() == Frame(p) + rest
    ensures Update(b).msgLength == |p| && Update(b).hasMessage
    ensures Update(b).Content() == p + rest
    ensures Update(b).msgLength <= Update(b).inBuffer && Update(b).Payload() == p
    ensures Clean(Update(b), false).Content() == rest
  {
    var f := Frame(p);
    FrameHeaderDecodes(p);
    assert b.data[0] == f[0] && b.data[1] == f[1] by {
      assert b.Content()[0] == f[0] && b.Content()[1] == f[1];
    }
    var u := Update(b);
    assert u.Content() == b.Content()[2..];
    assert b.Content()[2..] == f[2..] + rest;
    assert u.Content()[..|p|] == p;
  }

  /** Round trip: the bytes write_to_socket sends for a payload of length
      below 2^16, landing in an empty receive buffer, are decoded by one
      update into the same length and the same payload bytes, flagged ready;
      consuming that message empties the buffer again. */
  lemma RoundTrip(sender: Buffer, receiver: Buffer)
    requires sender.msgLength < WORD && sender.msgLength + 2 <= |sender.data|
    requires receiver.WellFormed() && receiver.inBuffer == 0 && receiver.msgLength == 0
    requires sender.msgLength + 2 <= |receiver.data|
    ensures
      var wire := PrependHeader(sender).data[..sender.msgLength + 2];
      var got := Update(Append(receiver, wire));
      && got.hasMessage
      && got.msgLength == sender.msgLength
      && got.inBuffer == sender.msgLength
      && got.Payload() == sender.data[..sender.msgLength]
      && Clean(got, false).inBuffer == 0
  {
    var p := sender.data[..sender.msgLength];
    var wire := PrependHeader(sender).data[..sender.msgLength + 2];
    assert wire == Frame(p);
    var arrived := Append(receiver, wire);
    assert arrived.Content() == Frame(p) + [];
    ConsumeFrame(arrived, p, []);
  }

  /** Pipelining: two frames received back to back, followed by anything,
      come out as the first payload, then, after consuming it and updating
      again, the second payload, in that order and without mixing; consuming
      the second leaves exactly what followed. */
  lemma Pipelining(b: Buffer, p1: seq<byte>, p2: seq<byte>, rest: seq<byte>)
    requires b.WellFormed() && b.msgLength == 0 && |p1| < WORD && |p2| < WORD
    requires b.Content() == Frame(p1) + Frame(p2) + rest
    ensures
      var u1 := Update(b);
      && u1.hasMessage && u1.msgLength <= u1.inBuffer && u1.Payload() == p1
      && var u2 := Update(Clean(u1, false));
      && u2.hasMessage && u2.msgLength <= u2.inBuffer && u2.Payload() == p2
      && Clean(u2, false).Content() == rest
  {
    assert b.Content() == Frame(p1) + (Frame(p2) + rest);
    ConsumeFrame(b, p1, Frame(p2) + rest);
    ConsumeFrame(Clean(Update(b), false), p2, rest);
  }

  /** A header split across two receives (the update as written): the
      first byte alone changes nothing and flags nothing; the second byte
      completes the header, which is decoded and stripped with no payload
      byte lost. */
  lemma PartialHeader(b: Buffer, p: seq<byte>)
    requires b.WellFormed() && b.inBuffer == 0 && b.msgLength == 0 && !b.hasMessage
    requires |p| < WORD && |p| + 2 <= |b.data|
    ensures
      var f := Frame(p);
      var one := Update(Append(b, f[..1]));
      && one == Append(b, f[..1]) && one.msgLength == 0 && !one.hasMessage
      && var two := Update(Append(one, f[1..]));
      && two.msgLength == |p| && two.hasMessage
      && two.msgLength <= two.inBuffer && two.Payload() == p
  {
    var f := Frame(p);
    var one := Append(b, f[..1]);
    var both := Append(one, f[1..]);
    assert both.Content() == f[..1] + f[1..] == f;
    assert both.Content() == Frame(p) + [];
    ConsumeFrame(both, p, []);
  }

  /** A payload of at least two bytes split across two receives (the update
      as written): with only `k` of its bytes held, the message is known but
      not flagged; the rest arriving flags it, with the payload intact.  A
      one-byte payload is the exception, see OneBytePayloadMissed. */
  lemma PartialPayload(b: Buffer, p: seq<byte>, k: nat)
    requires b.WellFormed() && b.inBuffer == 0 && b.msgLength == 0 && !b.hasMessage
    requires 2 <= |p| < WORD && |p| + 2 <= |b.data| && k < |p|
    ensures
      var first := Update(Append(b, Frame(p)[..k + 2]));
      && first.msgLength == |p| && !first.hasMessage && first.Content() == p[..k]
      && var second := Update(Append(first, p[k..]));
      && second.hasMessage && second.msgLength <= second.inBuffer
      && second.Payload() == p && second.Content() == p
  {
    PartialPayloadFixed(b, p, k);
    var first := Update(Append(b, Frame(p)[..k + 2]));
    assert Append(first, p[k..]).inBuffer == |p|;
  }

  /** The same split with the corrected update, which flags the payload
      when its last byte arrives whatever its length. */
  lemma PartialPayloadFixed(b: Buffer, p: seq<byte>, k: nat)
    requires b.WellFormed() && b.inBuffer == 0 && b.msgLength == 0 && !b.hasMessage
    requires |p| < WORD && |p| + 2 <= |b.data| && k < |p|
    ensures
      var first := UpdateFixed(Append(b, Frame(p)[..k + 2]));
      && first == Update(Append(b, Frame(p)[..k + 2]))
      && first.msgLength == |p| && !first.hasMessage && first.Content() == p[..k]
      && var second := UpdateFixed(Append(first, p[k..]));
      && second.hasMessage && second.msgLength <= second.inBuffer
      && second.Payload() == p && second.Content() == p
  {
    var f := Frame(p);
    FrameHeaderDecodes(p);
    var a := Append(b, f[..k + 2]);
    assert a.Content() == f[..k + 2];
    assert a.data[0] == f[0] && a.data[1] == f[1] by {
      assert a.Content()[0] == f[0] && a.Content()[1] == f[1];
    }
    var first := UpdateFixed(a);
    assert first.Content() == f[2..k + 2] == p[..k];
    var second := UpdateFixed(Append(first, p[k..]));
    assert second.Content() == p[..k] + p[k..] == p;
  }

  /** A header received on its own into an empty buffer is decoded and
      stripped, leaving the buffer empty and waiting for the payload. */
  lemma HeaderAlone(b: Buffer, p: seq<byte>)
    requires b.WellFormed() && b.inBuffer == 0 && b.msgLength == 0 && !b.hasMessage
    requires |p| < WORD && 2 <= |b.data|
    ensures Update(Append(b, Frame(p)[..2])).msgLength == |p|
    ensures Update(Append(b, Frame(p)[..2])).inBuffer == 0
    ensures Update(Append(b, Frame(p)[..2])).hasMessage <==> |p| == 0
  {
    var f := Frame(p);
    FrameHeaderDecodes(p);
    var a := Append(b, f[..2]);
    assert a.Content() == f[..2];
    assert a.data[0] == f[0] && a.data[1] == f[1] by {
      assert a.Content()[0] == f[0] && a.Content()[1] == f[1];
    }
  }

  /** update_buffer_info as written delays a one-byte payload that arrives
      in a receive of its own after its header: the buffer then holds
      exactly the whole message, yet it is not flagged ready until another
      byte arrives from the peer.  The corrected update flags it at once. */
  lemma OneBytePayloadMissed(b: Buffer, p: seq<byte>, x: byte)
    requires b.WellFormed() && b.inBuffer == 0 && b.msgLength == 0 && !b.hasMessage
    requires 3 <= |b.data| && |p| == 1
    ensures
      var first := Update(Append(b, Frame(p)[..2]));
      && first.msgLength == 1 && first.inBuffer == 0 && !first.hasMessage
      && var second := Update(Append(first, p));
      && second.msgLength == 1 && second.Content() == p
      && !second.hasMessage
      && UpdateFixed(Append(first, p)).hasMessage
      && var third := Update(Append(second, [x]));
      && third.hasMessage && third.Payload() == p && third.Content() == p + [x]
  {
    HeaderAlone(b, p);
    var first := Update(Append(b, Frame(p)[..2]));
    LoneByteAfterHeader(first, p);
  }

  /** The second half of the scenario above: one byte arriving when a
      one-byte payload is expected and nothing is held. */
  lemma LoneByteAfterHeader(first: Buffer, p: seq<byte>)
    requires first.WellFormed() && first.inBuffer == 0 && first.msgLength == 1 && !first.hasMessage
    requires 1 <= |first.data| && |p| == 1
    ensures Update(Append(first, p)) == Append(first, p)
    ensures Append(first, p).Content() == p && !Append(first, p).hasMessage
    ensures UpdateFixed(Append(first, p)).hasMessage
  {
  }

  /** A header that declares more than MAX_MESSAGE_SIZE, arriving at an
      empty buffer, makes the receive step ask for the connection to be
      closed before any message is handed on. */
  lemma OversizeHeaderCloses(lim: Limits, b: Buffer, s: Socket, fixed: bool)
    requires lim.Valid() && Inv(lim, b) && b.inBuffer == 0 && b.msgLength == 0
    requires !s.failing && |s.pending| >= 2
    requires BigEndian(s.pending[0], s.pending[1]) > lim.maxMessage
    ensures RecvStep(lim, b, s, fixed).TooLong?
  {
    var n := RecvCount(b, s);
    var a := Append(b, s.pending[..n]);
    assert a.data[0] == s.pending[0] && a.data[1] == s.pending[1] by {
      assert a.Content() == s.pending[..n];
      assert a.Content()[0] == s.pending[0] && a.Content()[1] == s.pending[1];
    }
  }

  /** A whole frame of an allowed length, followed by anything that fits,
      pending at an empty buffer: one receive step takes all of it and
      hands on that frame's payload, flagged ready, with the bytes that
      followed it held behind the payload. */
  lemma ReceiveFrames(lim: Limits, b: Buffer, s: Socket, p: seq<byte>, rest: seq<byte>, fixed: bool)
    requires lim.Valid() && Inv(lim, b) && b.inBuffer == 0 && b.msgLength == 0
    requires !s.failing && |p| <= lim.maxMessage && |p| < WORD
    requires s.pending == Frame(p) + rest && |s.pending| <= lim.bufferSize
    ensures
      var r := RecvStep(lim, b, s, fixed);
      && r.Received? && r.sock.pending == []
      && r.buf.hasMessage && r.buf.msgLength == |p| && r.buf.msgLength <= r.buf.inBuffer
      && r.buf.Payload() == p && r.buf.Content() == p + rest
  {
    var a := Append(b, s.pending);
    assert s.pending[..RecvCount(b, s)] == s.pending;
    assert a.Content() == Frame(p) + rest;
    ConsumeFrame(a, p, rest);
  }
}

=== FILE: reactor.dfy ===
/** One round of server.c's main loop: `poll`, the dispatch pass over the
    entries that were in use when `poll` returned (server.c:102-176), and the
    compaction pass (server.c:178-185).

    The table is seen through its fds in use (`Table.Live()` of the
    ConnTable module, where `Armed` shows every slot in use keeps POLLIN).
    What the system calls return is an input of the round: the `poll`
    result, each entry's `revents`, and per entry the descriptors `accept`
    hands out before it would block and whether the echo loop saw `recv`
    return 0.  Calls that fail fatally end the process (`syserr`) and are
    not modelled. */
module Reactor {
  import opened ConnTable

  /** What the pass does with one entry. */
  datatype Action =
    | Skip       // revents == 0: nothing to do, `continue`
    | Stop       // any revents other than POLLIN: end_server, `break`
    | AcceptAll  // the listening socket is readable
    | Serve      // a client socket is readable

  /** server.c:105-114.  Only an exact POLLIN counts as readable; POLLHUP,
      POLLERR or POLLIN together with any other bit stop the server. */
  function Classify(revents: int, fd: int, listenFd: int): (a: Action)
    ensures a == Skip <==> revents == 0
    ensures a == Stop <==> revents != 0 && revents != POLLIN
    ensures a == AcceptAll <==> revents == POLLIN && fd == listenFd
    ensures a == Serve <==> revents == POLLIN && fd != listenFd
  {
    if revents == 0 then Skip
    else if revents != POLLIN then Stop
    else if fd == listenFd then AcceptAll
    else Serve
  }

  /** What the system calls return while one entry is handled. */
  datatype Io = Io(accepted: seq<int>, peerClosed: bool)

  /** The state the pass carries: fds in use, and the two flags that are
      declared once, before the main loop (server.c:32-33). */
  datatype Pass = Pass(live: seq<int>, closeConnection: bool, endServer: bool)

  datatype PassResult =
    | Finished(pass: Pass)
    | TableOverflow  // an accept would write past connections[MAX_CLIENTS + 9]

  /** Handling one readable entry, then marking it closed when the flag
      says so (server.c:116-175): the listening socket appends every
      accepted descriptor after the entries in use; a client sets the flag
      to whether its peer closed. */
  function Handle(p: Pass, i: nat, a: Action, io: Io): (q: Pass)
    requires i < |p.live| && (a == AcceptAll || a == Serve)
    ensures |q.live| >= |p.live|
    ensures q.live[..i] == p.live[..i]
    ensures forall k :: i < k < |p.live| ==> q.live[k] == p.live[k]
    ensures q.live[i] == p.live[i] || q.live[i] == CLOSED
    ensures a == Serve ==> |q.live| == |p.live| && q.closeConnection == io.peerClosed
    ensures a == AcceptAll ==> q.live[|p.live|..] == io.accepted && q.closeConnection == p.closeConnection
    ensures q.live[i] == CLOSED <==> q.closeConnection || p.live[i] == CLOSED
    ensures q.endServer == p.endServer
  {
    var handled :=
      if a == AcceptAll then p.(live := p.live + io.accepted)
      else p.(closeConnection := io.peerClosed);
    if handled.closeConnection then handled.(live := handled.live[i := CLOSED]) else handled
  }

  /** The dispatch loop from index `i` up to `n` (the number of entries in
      use when `poll` returned; entries appended by this pass are not
      visited).  With `resetFlag` false this is the loop as written:
      `close_connection` is cleared only when a client is served, so after a
      listening-socket entry it still holds whatever the last client left
      there.  With `resetFlag` true it is cleared for every entry, which is
      the corrected loop. */
  function Dispatch(p: Pass, i: nat, n: nat, revents: seq<int>, io: seq<Io>, listenFd: int,
                    resetFlag: bool): (r: PassResult)
    requires i <= n <= |p.live| && n <= |revents| && n <= |io|
    ensures r.Finished? ==> |r.pass.live| >= |p.live|
    ensures r.Finished? && |p.live| <= TABLE_SIZE ==> |r.pass.live| <= TABLE_SIZE
    ensures r.Finished? ==> r.pass.live[..i] == p.live[..i]
    decreases n - i
  {
    if i == n then
      Finished(p)
    else
      var p := if resetFlag then p.(closeConnection := false) else p;
      var a := Classify(revents[i], p.live[i], listenFd);
      if a == Skip then
        Dispatch(p, i + 1, n, revents, io, listenFd, resetFlag)
      else if a == Stop then
        Finished(p.(endServer := true))
      else if a == AcceptAll && |p.live| + |io[i].accepted| > TABLE_SIZE then
        TableOverflow
      else
        Dispatch(Handle(p, i, a, io[i]), i + 1, n, revents, io, listenFd, resetFlag)
  }

  /** The server's state between rounds. */
  datatype Server = Server(live: seq<int>, listenFd: int, closeConnection: bool)

  datatype StepResult =
    | Continue(srv: Server)  // next round
    | Ended(srv: Server)     // end_server was set: the loop exits after compaction
    | TimedOut(srv: Server)  // poll returned 0: the loop exits at once
    | PollFailed             // poll returned < 0: syserr, the process exits
    | Overflow               // a write or read past the end of `connections`

  predicate Distinct(s: seq<int>) {
    forall a, b :: 0 <= a < b < |s| ==> s[a] != s[b]
  }

  /** What the loop relies on between rounds: the listening socket in slot
      0, no entry marked closed, no fd twice, and no more entries than the
      table has slots. */
  predicate TableInv(s: Server) {
    && 1 <= |s.live| <= TABLE_SIZE
    && s.live[0] == s.listenFd >= 0
    && CLOSED !in s.live
    && Distinct(s.live)
  }

  /** State after start-up (server.c:30, 33, 82-84). */
  function Start(listenFd: int): (s: Server)
    ensures s.live == ConnTable.Initial(listenFd).Live()
    ensures !s.closeConnection
    ensures listenFd >= 0 ==> TableInv(s)
  {
    Server([listenFd], listenFd, false)
  }

  /** `poll` reports nothing for an entry whose fd is negative. */
  predicate PollReport(live: seq<int>, revents: seq<int>) {
    && |revents| == |live|
    && forall k :: 0 <= k < |live| && live[k] < 0 ==> revents[k] == 0
  }

  /** One round, with the dispatch pass and compaction as written
      (`fixed` false) or as corrected (`fixed` true).  The compaction reads
      `connections[connections_len]`, so a table that is full and holds a
      closed entry overflows. */
  function Round(s: Server, polled: int, revents: seq<int>, io: seq<Io>, fixed: bool): (r: StepResult)
    requires PollReport(s.live, revents) && |io| == |s.live| && |s.live| <= TABLE_SIZE
    ensures r.PollFailed? <==> polled < 0
    ensures r.TimedOut? <==> polled == 0
    ensures r.TimedOut? ==> r.srv == s
    ensures r.Continue? || r.Ended? ==> r.srv.listenFd == s.listenFd && |r.srv.live| <= TABLE_SIZE
  {
    if polled < 0 then
      PollFailed
    else if polled == 0 then
      TimedOut(s)
    else
      var d := Dispatch(Pass(s.live, s.closeConnection, false), 0, |s.live|, revents, io, s.listenFd, fixed);
      if d.TableOverflow? then
        Overflow
      else if CLOSED in d.pass.live && |d.pass.live| == TABLE_SIZE then
        Overflow
      else
        var live := if fixed then RemoveClosed(d.pass.live) else SkipCompact(d.pass.live);
        var next := Server(live, s.listenFd, d.pass.closeConnection);
        if d.pass.endServer then Ended(next) else Continue(next)
  }
}

=== FILE: reactor_props.dfy ===
/** Properties of one round of the server loop: when it ends the server,
    what the corrected round keeps of the table, and how the flag that the
    loop as written never resets for the listening socket closes it. */
module ReactorProps {
  import opened ConnTable
  import opened Reactor

  /** Some entry in `[lo, hi)` reports anything other than nothing or POLLIN. */
  predicate HasAnomaly(revents: seq<int>, lo: nat, hi: nat)
    requires lo <= hi <= |revents|
  {
    exists k :: lo <= k < hi && revents[k] != 0 && revents[k] != POLLIN
  }

  /** The pass sets end_server exactly when an entry it reaches reports
      something other than POLLIN, whether or not the flag is reset. */
  lemma {:induction false} DispatchEndsIffAnomaly(p: Pass, i: nat, n: nat, revents: seq<int>, io: seq<Io>,
                                                  listenFd: int, resetFlag: bool)
    requires i <= n <= |p.live| && n <= |revents| && n <= |io| && !p.endServer
    ensures var d := Dispatch(p, i, n, revents, io, listenFd, resetFlag);
      d.Finished? ==> (d.pass.endServer <==> HasAnomaly(revents, i, n))
    decreases n - i
  {
    if i < n {
      var q := if resetFlag then p.(closeConnection := false) else p;
      var a := Classify(revents[i], q.live[i], listenFd);
      if a == Stop {
        assert revents[i] != 0 && revents[i] != POLLIN;
      } else {
        assert HasAnomaly(revents, i, n) <==> HasAnomaly(revents, i + 1, n) by {
          assert revents[i] == 0 || revents[i] == POLLIN;
        }
        if a == Skip {
          DispatchEndsIffAnomaly(q, i + 1, n, revents, io, listenFd, resetFlag);
        } else if !(a == AcceptAll && |q.live| + |io[i].accepted| > TABLE_SIZE) {
          DispatchEndsIffAnomaly(Handle(q, i, a, io[i]), i + 1, n, revents, io, listenFd, resetFlag);
        }
      }
    }
  }

  /** A round that polled something and did not overflow ends the server
      exactly when some entry reported something other than POLLIN. */
  lemma RoundEndsIffAnomaly(s: Server, polled: int, revents: seq<int>, io: seq<Io>, fixed: bool)
    requires PollReport(s.live, revents) && |io| == |s.live| && |s.live| <= TABLE_SIZE
    ensures var r := Round(s, polled, revents, io, fixed);
      polled > 0 && !r.Overflow? ==> (r.Ended? <==> HasAnomaly(revents, 0, |revents|))
  {
    DispatchEndsIffAnomaly(Pass(s.live, s.closeConnection, false), 0, |s.live|, revents, io, s.listenFd, fixed);
  }

  /** A client that is readable and whose peer closed is marked closed by
      the pass, as written or corrected, once the pass reaches it: serving
      it sets `close_connection`, which marks it.  The pass reaches it when
      no entry before it stops the server. */
  lemma {:induction false} DispatchMarks(p: Pass, i: nat, n: nat, revents: seq<int>, io: seq<Io>,
                                         listenFd: int, resetFlag: bool, k: nat)
    requires i <= k < n <= |p.live| && n <= |revents| && n <= |io|
    requires revents[k] == POLLIN && io[k].peerClosed && p.live[k] != listenFd
    requires !HasAnomaly(revents, i, k)
    ensures var d := Dispatch(p, i, n, revents, io, listenFd, resetFlag);
      d.Finished? ==> d.pass.live[k] == CLOSED
    decreases n - i
  {
    if i == k {
      ServedPeerClosedMarked(p, n, revents, io, listenFd, resetFlag, k);
    } else {
      var q := if resetFlag then p.(closeConnection := false) else p;
      var a := Classify(revents[i], q.live[i], listenFd);
      assert revents[i] == 0 || revents[i] == POLLIN;
      assert !HasAnomaly(revents, i + 1, k);
      if a == Skip {
        assert Dispatch(p, i, n, revents, io, listenFd, resetFlag)
            == Dispatch(q, i + 1, n, revents, io, listenFd, resetFlag);
        DispatchMarks(q, i + 1, n, revents, io, listenFd, resetFlag, k);
      } else if !(a == AcceptAll && |q.live| + |io[i].accepted| > TABLE_SIZE) {
        var h := Handle(q, i, a, io[i]);
        assert Dispatch(p, i, n, revents, io, listenFd, resetFlag)
            == Dispatch(h, i + 1, n, revents, io, listenFd, resetFlag);
        DispatchMarks(h, i + 1, n, revents, io, listenFd, resetFlag, k);
      }
    }
  }

  /** The entry the pass has reached: serving it marks it, and the rest of
      the pass leaves it marked. */
  lemma ServedPeerClosedMarked(p: Pass, n: nat, revents: seq<int>, io: seq<Io>,
                               listenFd: int, resetFlag: bool, k: nat)
    requires k < n <= |p.live| && n <= |revents| && n <= |io|
    requires revents[k] == POLLIN && io[k].peerClosed && p.live[k] != listenFd
    ensures var d := Dispatch(p, k, n, revents, io, listenFd, resetFlag);
      d.Finished? ==> d.pass.live[k] == CLOSED
  {
    var q := if resetFlag then p.(closeConnection := false) else p;
    assert Classify(revents[k], q.live[k], listenFd) == Serve;
    var h := Handle(q, k, Serve, io[k]);
    assert h.live[k] == CLOSED;
    assert Dispatch(p, k, n, revents, io, listenFd, resetFlag)
        == Dispatch(h, k + 1, n, revents, io, listenFd, resetFlag);
    var d := Dispatch(h, k + 1, n, revents, io, listenFd, resetFlag);
    if d.Finished? {
      assert d.pass.live[..k + 1][k] == h.live[..k + 1][k];
    }
  }

  // ---------------------------------------------------------------------
  // The corrected round keeps the table sound

  /** What `accept` may hand the listening socket in one round: distinct,
      non-negative descriptors that are not already in the table. */
  predicate FreshAccepts(s: Server, io: seq<Io>) {
    && |io| >= 1
    && Distinct(io[0].accepted)
    && forall fd :: fd in io[0].accepted ==> fd >= 0 && fd !in s.live
  }

  /** Where the corrected pass can have got to by entry `i`, relative to
      the entries `orig` it started from: only clients whose peer closed
      are marked, entries not yet reached are untouched, and the entries
      after the first `|orig|` are those the listening socket accepted. */
  predicate Shape(orig: seq<int>, live: seq<int>, i: nat, revents: seq<int>, io: seq<Io>) {
    && |orig| <= |live| && i <= |orig| == |revents| == |io|
    && (forall k :: 0 <= k < |orig| ==> live[k] == orig[k] || (live[k] == CLOSED && 0 < k && io[k].peerClosed))
    && (forall k :: i <= k < |orig| ==> live[k] == orig[k])
    && (live[|orig|..] == [] || (0 < i && live[|orig|..] == io[0].accepted))
    && (0 < i && revents[0] == POLLIN ==> live[|orig|..] == io[0].accepted)
  }

  lemma {:induction false} DispatchShape(orig: seq<int>, p: Pass, i: nat, revents: seq<int>, io: seq<Io>, listenFd: int)
    requires 1 <= |orig| && orig[0] == listenFd && Distinct(orig)
    requires Shape(orig, p.live, i, revents, io)
    ensures var d := Dispatch(p, i, |orig|, revents, io, listenFd, true);
      d.Finished? ==> Shape(orig, d.pass.live, |orig|, revents, io)
    decreases |orig| - i
  {
    if i < |orig| {
      var q := p.(closeConnection := false);
      var a := Classify(revents[i], q.live[i], listenFd);
      if a == Skip {
        DispatchShape(orig, q, i + 1, revents, io, listenFd);
      } else if a == Stop {
      } else if !(a == AcceptAll && |q.live| + |io[i].accepted| > TABLE_SIZE) {
        HandleShape(orig, q, i, a, revents, io, listenFd);
        DispatchShape(orig, Handle(q, i, a, io[i]), i + 1, revents, io, listenFd);
      }
    }
  }

  /** Handling a readable entry with the flag cleared keeps the shape: only
      the listening socket, in slot 0, appends; a client is marked only if
      its peer closed. */
  lemma HandleShape(orig: seq<int>, q: Pass, i: nat, a: Action, revents: seq<int>, io: seq<Io>, listenFd: int)
    requires 1 <= |orig| && orig[0] == listenFd && Distinct(orig)
    requires i < |orig| && Shape(orig, q.live, i, revents, io) && !q.closeConnection
    requires a == Classify(revents[i], q.live[i], listenFd) && (a == AcceptAll || a == Serve)
    ensures Shape(orig, Handle(q, i, a, io[i]).live, i + 1, revents, io)
  {
    var n := |orig|;
    var h := Handle(q, i, a, io[i]);
    assert q.live[i] == orig[i];
    if a == AcceptAll {
      assert i == 0;
      assert |q.live| == n;
      assert h.live[n..] == io[0].accepted;
    } else {
      assert i != 0;
      assert h.live[n..] == q.live[n..];
    }
  }

  /** No two entries not marked closed hold the same fd. */
  predicate DistinctOpen(s: seq<int>) {
    forall a, b :: 0 <= a < b < |s| && s[a] != CLOSED ==> s[a] != s[b]
  }

  lemma ShapeDistinctOpen(s: Server, live: seq<int>, revents: seq<int>, io: seq<Io>)
    requires TableInv(s) && FreshAccepts(s, io)
    requires Shape(s.live, live, |s.live|, revents, io)
    ensures DistinctOpen(live)
  {
    var n := |s.live|;
    forall a, b | 0 <= a < b < |live| && live[a] != CLOSED
      ensures live[a] != live[b]
    {
      if b < n {
        assert live[a] == s.live[a];
      } else if a < n {
        assert live[a] == s.live[a] && s.live[a] in s.live;
        assert live[b] == live[n..][b - n];
        assert live[b] in io[0].accepted;
      } else {
        assert live[a] == io[0].accepted[a - n] && live[b] == io[0].accepted[b - n];
      }
    }
  }

  lemma {:induction false} RemoveClosedDistinct(s: seq<int>)
    requires DistinctOpen(s)
    ensures Distinct(RemoveClosed(s))
    decreases |s|
  {
    if s != [] {
      var t := s[1..];
      assert DistinctOpen(t) by {
        forall a, b | 0 <= a < b < |t| && t[a] != CLOSED
          ensures t[a] != t[b]
        {
          assert t[a] == s[a + 1] && t[b] == s[b + 1];
        }
      }
      RemoveClosedDistinct(t);
      if s[0] != CLOSED {
        assert s[0] !in t by {
          forall b | 0 <= b < |t|
            ensures t[b] != s[0]
          {
            assert t[b] == s[b + 1];
          }
        }
        DistinctCons(s[0], RemoveClosed(t));
      }
    }
  }

  lemma DistinctCons(x: int, t: seq<int>)
    requires Distinct(t) && x !in t
    ensures Distinct([x] + t)
  {
    var r := [x] + t;
    forall a, b | 0 <= a < b < |r|
      ensures r[a] != r[b]
    {
      assert r[b] == t[b - 1];
      if a > 0 {
        assert r[a] == t[a - 1];
      }
    }
  }

  /** Compacting what the corrected pass left gives a sound table holding
      the listening socket first, every client whose peer did not close,
      and, when the listening socket was readable, everything accepted. */
  lemma CompactedShape(s: Server, live: seq<int>, revents: seq<int>, io: seq<Io>)
    requires TableInv(s) && FreshAccepts(s, io)
    requires Shape(s.live, live, |s.live|, revents, io)
    ensures |RemoveClosed(live)| >= 1 && RemoveClosed(live)[0] == s.listenFd
    ensures Distinct(RemoveClosed(live))
    ensures forall fd :: fd in RemoveClosed(live) ==> fd in s.live || fd in io[0].accepted
    ensures forall k :: 0 <= k < |s.live| && !io[k].peerClosed ==> s.live[k] in RemoveClosed(live)
    ensures revents[0] == POLLIN ==> forall fd :: fd in io[0].accepted ==> fd in RemoveClosed(live)
  {
    var n := |s.live|;
    var r := RemoveClosed(live);
    ShapeDistinctOpen(s, live, revents, io);
    RemoveClosedDistinct(live);
    assert live[0] == s.listenFd;
    assert r[0] == s.listenFd;
    forall fd | fd in r
      ensures fd in s.live || fd in io[0].accepted
    {
      var k :| 0 <= k < |live| && live[k] == fd;
      if k < n {
        assert s.live[k] in s.live;
      } else {
        assert live[n..][k - n] == fd;
      }
    }
    forall k | 0 <= k < n && !io[k].peerClosed
      ensures s.live[k] in r
    {
      assert live[k] == s.live[k];
      assert s.live[k] in s.live;
    }
    if revents[0] == POLLIN {
      forall fd | fd in io[0].accepted
        ensures fd in r
      {
        var j :| 0 <= j < |io[0].accepted| && io[0].accepted[j] == fd;
        assert live[n + j] == live[n..][j];
      }
    }
  }

  /** The corrected round, from a sound table and fresh accepted
      descriptors, leaves a sound table: the listening socket first, no
      entry marked closed, no fd twice, within the table.  Every fd it keeps
      was in the table or accepted; every client whose peer did not close
      stays, a readable client whose peer closed leaves when the pass
      reaches it, and a readable listening socket adds everything
      accepted. */
  lemma RoundKeepsTable(s: Server, polled: int, revents: seq<int>, io: seq<Io>)
    requires TableInv(s) && PollReport(s.live, revents) && |io| == |s.live|
    requires FreshAccepts(s, io)
    ensures var r := Round(s, polled, revents, io, true);
      r.Continue? || r.Ended? ==>
        && TableInv(r.srv)
        && (forall fd :: fd in r.srv.live ==> fd in s.live || fd in io[0].accepted)
        && (forall k :: 0 <= k < |s.live| && !io[k].peerClosed ==> s.live[k] in r.srv.live)
        && (forall k ::
              0 < k < |s.live| && revents[k] == POLLIN && io[k].peerClosed && !HasAnomaly(revents, 0, k)
              ==> s.live[k] !in r.srv.live)
        && (revents[0] == POLLIN ==> forall fd :: fd in io[0].accepted ==> fd in r.srv.live)
  {
    var r := Round(s, polled, revents, io, true);
    if r.Continue? || r.Ended? {
      var p := Pass(s.live, s.closeConnection, false);
      assert Shape(s.live, s.live, 0, revents, io);
      DispatchShape(s.live, p, 0, revents, io, s.listenFd);
      var live := Dispatch(p, 0, |s.live|, revents, io, s.listenFd, true).pass.live;
      assert r.srv.live == RemoveClosed(live);
      CompactedShape(s, live, revents, io);
      forall k | 0 < k < |s.live| && revents[k] == POLLIN && io[k].peerClosed && !HasAnomaly(revents, 0, k)
        ensures s.live[k] !in r.srv.live
      {
        ClosedPeerLeaves(s, p, live, revents, io, k);
      }
    }
  }

  /** The fd of a client the corrected pass marked is nowhere else in the
      table it left: no other entry held it and nothing accepted is in the
      table already. */
  lemma ClosedPeerLeaves(s: Server, p: Pass, live: seq<int>, revents: seq<int>, io: seq<Io>, k: nat)
    requires TableInv(s) && PollReport(s.live, revents) && |io| == |s.live| && FreshAccepts(s, io)
    requires p == Pass(s.live, s.closeConnection, false)
    requires Dispatch(p, 0, |s.live|, revents, io, s.listenFd, true).Finished?
    requires live == Dispatch(p, 0, |s.live|, revents, io, s.listenFd, true).pass.live
    requires Shape(s.live, live, |s.live|, revents, io)
    requires 0 < k < |s.live| && revents[k] == POLLIN && io[k].peerClosed && !HasAnomaly(revents, 0, k)
    ensures s.live[k] !in RemoveClosed(live)
  {
    var n := |s.live|;
    DispatchMarks(p, 0, n, revents, io, s.listenFd, true, k);
    assert live[k] == CLOSED;
    forall j | 0 <= j < |live|
      ensures live[j] != s.live[k]
    {
      if j < n && j != k {
        assert live[j] == s.live[j] || live[j] == CLOSED;
      } else if j >= n {
        assert live[j] == io[0].accepted[j - n];
        assert io[0].accepted[j - n] in io[0].accepted;
      }
    }
  }

  // ---------------------------------------------------------------------
  // The flag the loop as written never resets

  /** A pass as written that finds the listening socket in slot 0
      readable marks it closed exactly when `close_connection` was left set
      when the pass began. */
  lemma StaleFlagMarksListener(p: Pass, n: nat, revents: seq<int>, io: seq<Io>, listenFd: int)
    requires 0 < n <= |p.live| && n <= |revents| && n <= |io|
    requires p.live[0] == listenFd && listenFd >= 0 && revents[0] == POLLIN
    ensures var d := Dispatch(p, 0, n, revents, io, listenFd, false);
      d.Finished? ==> (d.pass.live[0] == CLOSED <==> p.closeConnection)
  {
    if |p.live| + |io[0].accepted| <= TABLE_SIZE {
      assert Classify(revents[0], p.live[0], listenFd) == AcceptAll;
      var h := Handle(p, 0, AcceptAll, io[0]);
      assert h.live[0] == CLOSED <==> p.closeConnection;
      assert Dispatch(p, 0, n, revents, io, listenFd, false) == Dispatch(h, 1, n, revents, io, listenFd, false);
    }
  }

  /** The corrected pass never marks the listening socket in slot 0, whatever
      the flag held when the pass began. */
  lemma ResetFlagKeepsListener(p: Pass, n: nat, revents: seq<int>, io: seq<Io>, listenFd: int)
    requires 0 < n <= |p.live| && n <= |revents| && n <= |io|
    requires p.live[0] == listenFd && listenFd >= 0 && revents[0] == POLLIN
    ensures var d := Dispatch(p, 0, n, revents, io, listenFd, true);
      d.Finished? ==> d.pass.live[0] == listenFd
  {
    if |p.live| + |io[0].accepted| <= TABLE_SIZE {
      var q := p.(closeConnection := false);
      assert Classify(revents[0], q.live[0], listenFd) == AcceptAll;
      var g := Handle(q, 0, AcceptAll, io[0]);
      assert g.live[0] == listenFd;
      assert Dispatch(p, 0, n, revents, io, listenFd, true) == Dispatch(g, 1, n, revents, io, listenFd, true);
    }
  }

  /** Two rounds as written.  In the first, client 5's peer closes, so the
      flag is left set; in the second, only the listening socket is
      readable, it accepts fd 6, and the stale flag marks the listening
      socket closed: the table that remains holds only fd 6, and no further
      connection can be accepted.  The corrected round keeps the listening
      socket. */
  lemma StaleFlagClosesListener()
    ensures
      var first := Round(Server([3, 5], 3, false), 1, [0, POLLIN], [Io([], false), Io([], true)], false);
      && first == Continue(Server([3], 3, true))
      && Round(first.srv, 1, [POLLIN], [Io([6], false)], false) == Continue(Server([6], 3, true))
      && Round(first.srv, 1, [POLLIN], [Io([6], false)], true) == Continue(Server([3, 6], 3, false))
  {
    var d1 := Dispatch(Pass([3, 5], false, false), 0, 2, [0, POLLIN], [Io([], false), Io([], true)], 3, false);
    assert d1 == Finished(Pass([3, CLOSED], true, false));
    assert SkipCompact([3, CLOSED]) == [3] by {
      assert [3, CLOSED][1..] == [CLOSED];
    }
    var d2 := Dispatch(Pass([3], true, false), 0, 1, [POLLIN], [Io([6], false)], 3, false);
    assert d2 == Finished(Pass([CLOSED, 6], true, false));
    assert SkipCompact([CLOSED, 6]) == [6] by {
      assert [CLOSED, 6][2..] == [];
    }
    var d3 := Dispatch(Pass([3], true, false), 0, 1, [POLLIN], [Io([6], false)], 3, true);
    assert d3 == Finished(Pass([3, 6], false, false));
    assert RemoveClosed([3, 6]) == [3, 6] by {
      assert [3, 6][1..] == [6] && [6][1..] == [];
    }
  }
}

=== FILE: table.dfy ===
/** The poll table of server.c: an array of MAX_CLIENTS + 10 `pollfd`
    with `connections_len` entries in use.  Slot 0 holds the listening socket;
    accepted sockets are appended; a closed connection is marked by setting
    its fd to -1 and removed by a compaction pass at the end of each round.
    Only the `fd` field ever moves: `events` stays with its slot, and
    `revents` is rewritten by every `poll` (it is an input of the round, see
    the Reactor module). */
module ConnTable {

  const MAX_CLIENTS: nat := 20

  /** Number of slots of `connections`. */
  const TABLE_SIZE: nat := MAX_CLIENTS + 10

  /** POLLIN as defined by Linux. */
  const POLLIN: int := 1

  /** The fd value that marks a closed entry. */
  const CLOSED: int := -1

  /** The `fd` and `events` fields of a `struct pollfd`. */
  datatype PollFd = PollFd(fd: int, events: int)

  /** The whole array and `connections_len`. */
  datatype Table = Table(entries: seq<PollFd>, len: nat) {
    predicate WellFormed() {
      len <= |entries|
    }

    /** The fds of the entries in use, in slot order. */
    function Live(): seq<int>
      requires WellFormed()
    {
      Fds(entries[..len])
    }
  }

  function Fds(e: seq<PollFd>): (r: seq<int>)
    ensures |r| == |e|
    ensures forall k :: 0 <= k < |e| ==> r[k] == e[k].fd
  {
    seq(|e|, k requires 0 <= k < |e| => e[k].fd)
  }

  /** Every slot in use listens for POLLIN. */
  predicate Armed(t: Table)
    requires t.WellFormed()
  {
    forall k :: 0 <= k < t.len ==> t.entries[k].events == POLLIN
  }

  /** The table right after start-up (server.c:82-84, 30): all slots zeroed,
      slot 0 the listening socket with POLLIN, one slot in use. */
  function Initial(listenFd: int): (t: Table)
    ensures t.WellFormed() && |t.entries| == TABLE_SIZE
    ensures t.Live() == [listenFd] && Armed(t)
  {
    var e := [PollFd(listenFd, POLLIN)] + seq(TABLE_SIZE - 1, _ => PollFd(0, 0));
    assert Fds(e[..1]) == [listenFd];
    Table(e, 1)
  }

  /** One accepted socket (server.c:129-131): written into slot
      `connections_len` with POLLIN, and one more slot in use.  The source
      does no bound check, so the slot must exist. */
  function Append(t: Table, fd: int): (r: Table)
    requires t.WellFormed() && t.len < |t.entries|
    ensures r.WellFormed() && |r.entries| == |t.entries| && r.len == t.len + 1
    ensures r.Live() == t.Live() + [fd]
    ensures Armed(t) ==> Armed(r)
    ensures forall k :: 0 <= k < |t.entries| && k != t.len ==> r.entries[k] == t.entries[k]
  {
    var r := Table(t.entries[t.len := PollFd(fd, POLLIN)], t.len + 1);
    assert r.Live() == t.Live() + [fd];
    r
  }

  // ---------------------------------------------------------------------
  // Reference definitions over the fd column

  /** The entries that are not marked closed, in their original order. */
  function RemoveClosed(s: seq<int>): (r: seq<int>)
    ensures |r| <= |s| && CLOSED !in r
    ensures forall x :: x in r <==> x in s && x != CLOSED
  {
    if s == [] then []
    else if s[0] == CLOSED then RemoveClosed(s[1..])
    else [s[0]] + RemoveClosed(s[1..])
  }

  /** What the compaction loop at server.c:178-185 does to the fds in use.
      Scanning left to right, an entry marked closed is removed by shifting
      the rest left, and the scan then moves on past the entry that was just
      shifted into its place, without looking at it. */
  function SkipCompact(s: seq<int>): (r: seq<int>)
    ensures |r| <= |s|
    ensures forall x :: x in r ==> x in s
  {
    if s == [] then []
    else if s[0] != CLOSED then [s[0]] + SkipCompact(s[1..])
    else if |s| == 1 then []
    else [s[1]] + SkipCompact(s[2..])
  }

  /** Two neighbouring entries are both marked closed. */
  predicate AdjacentClosed(s: seq<int>) {
    exists k :: 0 <= k < |s| - 1 && s[k] == CLOSED && s[k + 1] == CLOSED
  }

  // ---------------------------------------------------------------------
  // Shifting fds down one slot

  /** The inner loop of the compaction, which copies each following fd one
      slot down, as one step: the fds of slots `(i, n]` move one slot left; slot `n`
      keeps its fd, and every `events` stays where it is. */
  function ShiftLeft(e: seq<PollFd>, i: nat, n: nat): (r: seq<PollFd>)
    requires i < n < |e|
    ensures |r| == |e|
    ensures forall k :: 0 <= k < |e| ==> r[k].events == e[k].events
    ensures forall k :: i <= k < n ==> r[k].fd == e[k + 1].fd
    ensures forall k :: 0 <= k < |e| && !(i <= k < n) ==> r[k] == e[k]
  {
    seq(|e|, k requires 0 <= k < |e| => if i <= k < n then e[k].(fd := e[k + 1].fd) else e[k])
  }

  /** The shift of `fds` in slots `[i, n)` as the source writes it: one
      slot per step of the inner loop. */
  method Shift(e: seq<PollFd>, i: nat, n: nat) returns (c: seq<PollFd>)
    requires i < n < |e|
    ensures c == ShiftLeft(e, i, n)
  {
    c := e;
    var j := i;
    while j < n
      invariant i <= j <= n
      invariant |c| == |e|
      invariant forall k :: 0 <= k < |e| && !(i <= k < j) ==> c[k] == e[k]
      invariant forall k :: i <= k < j ==> c[k] == e[k].(fd := e[k + 1].fd)
    {
      c := c[j := c[j].(fd := c[j + 1].fd)];
      j := j + 1;
    }
    assert forall k :: 0 <= k < |e| ==> c[k] == ShiftLeft(e, i, n)[k];
  }

  /** The fds of a run of slots are that run of the fd column. */
  lemma FdsSlice(c: seq<PollFd>, a: nat, b: nat)
    requires a <= b <= |c|
    ensures Fds(c[a..b]) == Fds(c)[a..b]
  {
    assert |Fds(c[a..b])| == |Fds(c)[a..b]|;
    forall k | 0 <= k < b - a
      ensures Fds(c[a..b])[k] == Fds(c)[a..b][k]
    {
      assert c[a..b][k] == c[a + k];
    }
  }

  // ---------------------------------------------------------------------
  // One step of each scan, on the fd column `f` with `n` entries in use

  /** Passing over an entry in use keeps it, for either scan. */
  lemma KeepStep(f: seq<int>, i: nat, n: nat)
    requires i < n <= |f| && f[i] != CLOSED
    ensures f[..i + 1] + SkipCompact(f[i + 1..n]) == f[..i] + SkipCompact(f[i..n])
    ensures f[..i + 1] + RemoveClosed(f[i + 1..n]) == f[..i] + RemoveClosed(f[i..n])
  {
    assert f[i..n][1..] == f[i + 1..n];
    assert f[..i + 1] == f[..i] + [f[i]];
  }

  /** The as-written scan over a closed entry at `i`: once it is shifted out
      (leaving `h` in use), the scan moves on past the entry now at `i`. */
  lemma SkipClosedStep(f: seq<int>, i: nat, n: nat)
    requires i < n <= |f| && f[i] == CLOSED
    ensures var h := f[..i] + f[i + 1..n];
      && (i + 1 < n ==> h[..i + 1] + SkipCompact(h[i + 1..]) == f[..i] + SkipCompact(f[i..n]))
      && (i + 1 == n ==> h == f[..i] + SkipCompact(f[i..n]))
  {
    var h := f[..i] + f[i + 1..n];
    var s := f[i..n];
    if i + 1 < n {
      assert s[2..] == f[i + 2..n];
      assert h[..i + 1] == f[..i] + [s[1]];
      assert h[i + 1..] == s[2..];
    } else {
      assert s == [CLOSED];
    }
  }

  /** The corrected scan over a closed entry at `i`: once it is shifted out
      (leaving `h` in use), the scan stays at `i`. */
  lemma RemoveClosedStep(f: seq<int>, i: nat, n: nat)
    requires i < n <= |f| && f[i] == CLOSED
    ensures var h := f[..i] + f[i + 1..n];
      h[..i] + RemoveClosed(h[i..]) == f[..i] + RemoveClosed(f[i..n])
  {
    var h := f[..i] + f[i + 1..n];
    assert h[..i] == f[..i];
    assert h[i..] == f[i..n][1..];
  }

  /** Removing the closed entry in slot `i` by one shift, summarised by what
      each scan needs: how the fds in use relate before and after, and that
      `events` and every slot from `n` on are untouched. */
  method ShiftOut(c: seq<PollFd>, i: nat, n: nat) returns (d: seq<PollFd>)
    requires i < n < |c| && c[i].fd == CLOSED
    ensures |d| == |c|
    ensures forall k :: 0 <= k < |c| ==> d[k].events == c[k].events
    ensures forall k :: n <= k < |c| ==> d[k] == c[k]
    ensures i + 1 < n ==>
      Fds(d)[..i + 1] + SkipCompact(Fds(d)[i + 1..n - 1]) == Fds(c)[..i] + SkipCompact(Fds(c)[i..n])
    ensures i + 1 == n ==> Fds(d)[..n - 1] == Fds(c)[..i] + SkipCompact(Fds(c)[i..n])
    ensures Fds(d)[..i] + RemoveClosed(Fds(d)[i..n - 1]) == Fds(c)[..i] + RemoveClosed(Fds(c)[i..n])
  {
    d := Shift(c, i, n);
    var f, g := Fds(c), Fds(d);
    var h := f[..i] + f[i + 1..n];
    assert g[..n - 1] == h by {
      forall k | 0 <= k < n - 1
        ensures g[k] == h[k]
      {
        if k < i {
          assert h[k] == f[k];
        } else {
          assert h[k] == f[k + 1];
        }
      }
    }
    if i + 1 < n {
      assert g[..i + 1] == h[..i + 1] && g[i + 1..n - 1] == h[i + 1..];
    }
    assert g[..i] == h[..i] && g[i..n - 1] == h[i..];
    SkipClosedStep(f, i, n);
    RemoveClosedStep(f, i, n);
  }

  // ---------------------------------------------------------------------
  // The compaction loop

  /** One iteration of the compaction loop as written: a closed entry is
      shifted out, and either way the scan moves to the next slot. */
  method SkipScanStep(c: seq<PollFd>, i: nat, n: nat) returns (c2: seq<PollFd>, n2: nat)
    requires i < n <= |c| && (n < |c| || CLOSED !in Fds(c)[i..n])
    ensures |c2| == |c| && (n2 == n || n2 + 1 == n)
    ensures forall k :: 0 <= k < |c| ==> c2[k].events == c[k].events
    ensures forall k :: n <= k < |c| ==> c2[k] == c[k]
    ensures i + 1 <= n2 ==>
      Fds(c2)[..i + 1] + SkipCompact(Fds(c2)[i + 1..n2]) == Fds(c)[..i] + SkipCompact(Fds(c)[i..n])
    ensures i + 1 > n2 ==> i == n2 && Fds(c2)[..n2] == Fds(c)[..i] + SkipCompact(Fds(c)[i..n])
    ensures i + 1 <= n2 ==> n2 < |c2| || CLOSED !in Fds(c2)[i + 1..n2]
  {
    if c[i].fd == CLOSED {
      assert n < |c| by {
        assert Fds(c)[i..n][0] == CLOSED;
      }
      c2 := ShiftOut(c, i, n);
      n2 := n - 1;
    } else {
      KeepStep(Fds(c), i, n);
      c2, n2 := c, n;
      assert CLOSED !in Fds(c)[i..n] ==> CLOSED !in Fds(c)[i + 1..n] by {
        assert Fds(c)[i + 1..n] == Fds(c)[i..n][1..];
      }
    }
  }

  /** One iteration of the corrected compaction loop: a closed entry is
      shifted out and the scan stays; an entry in use is passed over. */
  method RemoveScanStep(c: seq<PollFd>, i: nat, n: nat) returns (c2: seq<PollFd>, i2: nat, n2: nat)
    requires i < n <= |c| && (n < |c| || CLOSED !in Fds(c)[i..n])
    ensures |c2| == |c| && i2 <= n2 <= n && n2 - i2 < n - i
    ensures forall k :: 0 <= k < |c| ==> c2[k].events == c[k].events
    ensures forall k :: n <= k < |c| ==> c2[k] == c[k]
    ensures Fds(c2)[..i2] + RemoveClosed(Fds(c2)[i2..n2]) == Fds(c)[..i] + RemoveClosed(Fds(c)[i..n])
    ensures n2 < |c2| || CLOSED !in Fds(c2)[i2..n2]
  {
    if c[i].fd == CLOSED {
      assert n < |c| by {
        assert Fds(c)[i..n][0] == CLOSED;
      }
      c2 := ShiftOut(c, i, n);
      i2, n2 := i, n - 1;
    } else {
      KeepStep(Fds(c), i, n);
      c2, i2, n2 := c, i + 1, n;
      assert CLOSED !in Fds(c)[i..n] ==> CLOSED !in Fds(c)[i + 1..n] by {
        assert Fds(c)[i + 1..n] == Fds(c)[i..n][1..];
      }
    }
  }

  /** The loop of the compaction pass as written, over the whole array `c0`
      with `n0` entries in use: the fds in use come out as `SkipCompact` of
      those going in, `events` never move, and slots from `n0` on are only
      read.  The shift reads the slot after the last one in use, so when
      anything is marked closed that slot must exist. */
  method SkipScan(c0: seq<PollFd>, n0: nat) returns (c: seq<PollFd>, n: nat)
    requires n0 <= |c0| && (n0 < |c0| || CLOSED !in Fds(c0)[..n0])
    ensures |c| == |c0| && n <= n0
    ensures Fds(c)[..n] == SkipCompact(Fds(c0)[..n0])
    ensures forall k :: 0 <= k < |c0| ==> c[k].events == c0[k].events
    ensures forall k :: n0 <= k < |c0| ==> c[k] == c0[k]
  {
    c, n := c0, n0;
    var i: nat := 0;
    assert Fds(c)[0..n] == Fds(c0)[..n0];
    while i < n
      invariant n <= n0 && i <= n + 1 && |c| == |c0|
      invariant i <= n ==> Fds(c)[..i] + SkipCompact(Fds(c)[i..n]) == SkipCompact(Fds(c0)[..n0])
      invariant i == n + 1 ==> Fds(c)[..n] == SkipCompact(Fds(c0)[..n0])
      invariant forall k :: 0 <= k < |c| ==> c[k].events == c0[k].events
      invariant forall k :: n0 <= k < |c| ==> c[k] == c0[k]
      invariant i <= n ==> n < |c| || CLOSED !in Fds(c)[i..n]
      decreases n + 1 - i
    {
      c, n := SkipScanStep(c, i, n);
      i := i + 1;
    }
    if i <= n {
      assert Fds(c)[i..n] == [];
    }
  }

  /** The compaction pass of server.c:178-185 as written, on the table.
      The fds in use come out as `SkipCompact` of those going in; `events`
      never move; slots past `connections_len` are only read, except that
      each removal copies the fd of the first unused slot into the slot it
      frees. */
  method CompactAsWritten(t: Table) returns (r: Table)
    requires t.WellFormed()
    requires CLOSED in t.Live() ==> t.len < |t.entries|
    ensures r.WellFormed() && |r.entries| == |t.entries| && r.len <= t.len
    ensures r.Live() == SkipCompact(t.Live())
    ensures forall k :: 0 <= k < |t.entries| ==> r.entries[k].events == t.entries[k].events
    ensures forall k :: t.len < k < |t.entries| ==> r.entries[k] == t.entries[k]
    ensures Armed(t) ==> Armed(r)
  {
    FdsSlice(t.entries, 0, t.len);
    assert t.entries[0..t.len] == t.entries[..t.len];
    var c, n := SkipScan(t.entries, t.len);
    FdsSlice(c, 0, n);
    assert c[0..n] == c[..n];
    r := Table(c, n);
  }

  /** The loop of the compaction pass as evidently intended: after a
      removal the scan stays at the same index, so the entry shifted into it
      is examined too.  The fds in use come out as exactly those not marked
      closed, in order. */
  method RemoveScan(c0: seq<PollFd>, n0: nat) returns (c: seq<PollFd>, n: nat)
    requires n0 <= |c0| && (n0 < |c0| || CLOSED !in Fds(c0)[..n0])
    ensures |c| == |c0| && n <= n0
    ensures Fds(c)[..n] == RemoveClosed(Fds(c0)[..n0])
    ensures forall k :: 0 <= k < |c0| ==> c[k].events == c0[k].events
    ensures forall k :: n0 <= k < |c0| ==> c[k] == c0[k]
  {
    c, n := c0, n0;
    var i: nat := 0;
    assert Fds(c)[0..n] == Fds(c0)[..n0];
    while i < n
      invariant i <= n <= n0 && |c| == |c0|
      invariant Fds(c)[..i] + RemoveClosed(Fds(c)[i..n]) == RemoveClosed(Fds(c0)[..n0])
      invariant forall k :: 0 <= k < |c| ==> c[k].events == c0[k].events
      invariant forall k :: n0 <= k < |c| ==> c[k] == c0[k]
      invariant n < |c| || CLOSED !in Fds(c)[i..n]
      decreases n - i
    {
      c, i, n := RemoveScanStep(c, i, n);
    }
    assert Fds(c)[i..n] == [];
  }

  /** The corrected compaction pass on the table: the fds in use come out
      as exactly those not marked closed, in order, with `events` and the
      slots past `connections_len` as in the pass as written. */
  method Compact(t: Table) returns (r: Table)
    requires t.WellFormed()
    requires CLOSED in t.Live() ==> t.len < |t.entries|
    ensures r.WellFormed() && |r.entries| == |t.entries| && r.len <= t.len
    ensures r.Live() == RemoveClosed(t.Live())
    ensures forall k :: 0 <= k < |t.entries| ==> r.entries[k].events == t.entries[k].events
    ensures forall k :: t.len < k < |t.entries| ==> r.entries[k] == t.entries[k]
    ensures Armed(t) ==> Armed(r)
  {
    FdsSlice(t.entries, 0, t.len);
    assert t.entries[0..t.len] == t.entries[..t.len];
    var c, n := RemoveScan(t.entries, t.len);
    FdsSlice(c, 0, n);
    assert c[0..n] == c[..n];
    r := Table(c, n);
  }
}

=== FILE: table_props.dfy ===
/** Properties of the compaction pass: what the loop as written keeps,
    when it leaves a closed entry behind, and how it relates to the
    complete removal the corrected loop performs. */
module TableProps {
  import opened ConnTable

  lemma {:induction false} RemoveClosedConcat(a: seq<int>, b: seq<int>)
    ensures RemoveClosed(a + b) == RemoveClosed(a) + RemoveClosed(b)
    decreases |a|
  {
    if a != [] {
      assert (a + b)[1..] == a[1..] + b;
      RemoveClosedConcat(a[1..], b);
    } else {
      assert a + b == b;
    }
  }

  /** Removing closed entries from a sequence that has none changes nothing. */
  lemma {:induction false} RemoveClosedNoop(s: seq<int>)
    requires CLOSED !in s
    ensures RemoveClosed(s) == s
    decreases |s|
  {
    if s != [] {
      assert s[0] in s;
      assert forall x :: x in s[1..] ==> x in s;
      RemoveClosedNoop(s[1..]);
      assert s == [s[0]] + s[1..];
    }
  }

  /** The compaction loop as written keeps every entry in use, in the same
      relative order: only closed entries are ever dropped. */
  lemma {:induction false} SkipCompactKeepsLiveOrder(s: seq<int>)
    ensures RemoveClosed(SkipCompact(s)) == RemoveClosed(s)
    decreases |s|
  {
    if s == [] {
    } else if s[0] != CLOSED {
      SkipCompactKeepsLiveOrder(s[1..]);
      RemoveClosedConcat([s[0]], SkipCompact(s[1..]));
    } else if |s| == 1 {
    } else {
      SkipCompactKeepsLiveOrder(s[2..]);
      RemoveClosedConcat([s[1]], SkipCompact(s[2..]));
      assert s[1..][1..] == s[2..];
    }
  }

  /** A pair of adjacent closed entries at the front, or one further on. */
  lemma AdjacentClosedUnfold(s: seq<int>)
    requires |s| >= 1
    ensures AdjacentClosed(s) <==>
      (|s| >= 2 && s[0] == CLOSED && s[1] == CLOSED) || AdjacentClosed(s[1..])
  {
    if AdjacentClosed(s) {
      var k :| 0 <= k < |s| - 1 && s[k] == CLOSED && s[k + 1] == CLOSED;
      if k > 0 {
        assert s[1..][k - 1] == CLOSED && s[1..][k] == CLOSED;
      }
    }
    if AdjacentClosed(s[1..]) {
      var k :| 0 <= k < |s[1..]| - 1 && s[1..][k] == CLOSED && s[1..][k + 1] == CLOSED;
      assert s[k + 1] == CLOSED && s[k + 2] == CLOSED;
    }
  }

  /** A closed entry survives the compaction loop as written exactly when
      two closed entries were adjacent: the second of the pair is the one
      shifted into the slot the scan has just passed. */
  lemma {:induction false} ClosedSurvivesIffAdjacent(s: seq<int>)
    ensures CLOSED in SkipCompact(s) <==> AdjacentClosed(s)
    decreases |s|
  {
    if s == [] {
    } else if s[0] != CLOSED {
      ClosedSurvivesIffAdjacent(s[1..]);
      AdjacentClosedUnfold(s);
      assert CLOSED in SkipCompact(s) <==> CLOSED in SkipCompact(s[1..]);
    } else if |s| == 1 {
    } else {
      ClosedSurvivesIffAdjacent(s[2..]);
      AdjacentClosedUnfold(s);
      AdjacentClosedUnfold(s[1..]);
      assert s[1..][1..] == s[2..];
      assert CLOSED in SkipCompact(s) <==> s[1] == CLOSED || CLOSED in SkipCompact(s[2..]);
    }
  }

  /** Without adjacent closed entries the loop as written removes every
      closed entry, and so agrees with the corrected loop. */
  lemma NoAdjacentClosedMeansFullCompaction(s: seq<int>)
    requires !AdjacentClosed(s)
    ensures CLOSED !in SkipCompact(s)
    ensures SkipCompact(s) == RemoveClosed(s)
  {
    ClosedSurvivesIffAdjacent(s);
    RemoveClosedNoop(SkipCompact(s));
    SkipCompactKeepsLiveOrder(s);
  }

  /** The loop as written shortens the table exactly when some entry is
      closed, so running it once per round eventually clears every mark. */
  lemma {:induction false} SkipCompactShrinksIffClosed(s: seq<int>)
    ensures |SkipCompact(s)| < |s| <==> CLOSED in s
    decreases |s|
  {
    if s != [] && s[0] != CLOSED {
      SkipCompactShrinksIffClosed(s[1..]);
      assert CLOSED in s <==> CLOSED in s[1..] by {
        assert s == [s[0]] + s[1..];
      }
    } else if s != [] {
      assert s[0] in s;
    }
  }

  /** The concrete case: a listening socket, two neighbouring closed
      clients and a live client compact to a table that still holds a
      closed entry; the corrected loop removes both. */
  lemma AdjacentClosedLeftBehind()
    ensures SkipCompact([3, CLOSED, CLOSED, 5]) == [3, CLOSED, 5]
    ensures RemoveClosed([3, CLOSED, CLOSED, 5]) == [3, 5]
  {
    var s := [3, CLOSED, CLOSED, 5];
    var t := [CLOSED, CLOSED, 5];
    assert s[1..] == t && t[1..] == [CLOSED, 5] && t[2..] == [5] && [5][1..] == [];
    assert SkipCompact([5]) == [5];
    assert SkipCompact(t) == [CLOSED] + SkipCompact([5]);
    assert SkipCompact(s) == [3] + SkipCompact(t);
    assert RemoveClosed([5]) == [5];
    assert RemoveClosed([CLOSED, 5]) == [5] by {
      assert [CLOSED, 5][1..] == [5];
    }
    assert RemoveClosed(t) == [5];
    assert RemoveClosed(s) == [3] + RemoveClosed(t);
  }
}
